=== FILE: README.md ===
# In-memory topic log broker — Dafny model

This project models the core of a small message broker written in Go. The
broker keeps one append-only, in-memory log per topic. It hands out offsets
that are raw positions in that log. It serves reads by offset and evicts
entries older than a retention window. The model covers four parts:

- `Storage` (storage.go): one topic's log, `MemoryStore`. It covers `Push`,
  `Get` and `Cleanup`. The clock is an explicit integer `now`.
- `Registry` (server.go): the server's `topics` and `cleanerStops` maps, and
  `getStoreForTopic` (get-or-create). It also covers `publish`, the dispatch
  `loop` as a fold over queued deliveries, and the consume path that the HTTP
  handler runs. Any interleaving of publishes, consumes and cleaner ticks is
  modelled as a sequence of events.
- `Routing` (producer.go): `ServeHTTP` as a total function of method and path.
  It yields a publish, a consume, or a 400/404/405 status, and maps store
  results to 200/204.
- `Wrappers`: `Option` and `Result`.

Every operation is a pure function over immutable values. Stores are values
in the registry's map. A topic's store keeps its identity through its
cleaner stop handle, which is never replaced.

The model follows the code as written; in particular:
- A GET on an unknown topic creates that topic (producer.go:71).
- Every store error gives the same 204 reply, so a client cannot tell an
  offset not yet written from an expired one (producer.go:72-75).
- `Cleanup` removes an entry whose age is exactly the retention, but `Get`
  still returns it. `CleanupDropsBoundaryEntry` states this.
- Offsets are raw positions, so a cleanup renumbers the surviving entries.
  A later push can then reuse an offset for a different message.
  `CleanupShiftsOffsets` and `StaleOffsetAliasing` state this. The model
  does not fix it.

## Model

| member | source | states |
|---|---|---|
| Storage.NewStoreReadsFail | storage.go:30-35 | every read of a store fresh from `NewMemoryStore` fails: NegativeOffset for negative offsets, OffsetTooHigh for all others |
| Storage.Push | storage.go:37-46 | appends exactly one entry `(payload, now)` at the tail, leaves earlier entries unchanged, keeps the retention, and returns the old length (new length − 1) |
| Storage.Get | storage.go:48-64 | fails with NegativeOffset iff offset < 0, with OffsetTooHigh iff offset ≥ 0 and offset ≥ length (so always on an empty store), with MessageExpired iff the entry's age is strictly greater than retention; otherwise returns that entry's payload unchanged |
| Storage.EvictionPoint | storage.go:73-83 | the index the scan stops at: every entry before it is at or before the cutoff, and the entry at it (if any) is after the cutoff |
| Storage.EvictionPointUnique | storage.go:73-83 | those two properties determine the index uniquely |
| Storage.Cleanup | storage.go:66-87 | the result is a suffix of the old log with the same retention; every removed entry has timestamp ≤ now − retention; the first survivor, if any, has timestamp > now − retention |
| Storage.CleanupScan | storage.go:72-86 | the head-first scan with its break and its last-entry case computes exactly the functional `Cleanup` |
| Storage.PushThenGet | storage.go:37-64 | reading the offset `Push` returned yields the payload unless it has aged past retention; reads of earlier offsets are unaffected by the push |
| Storage.ExpiryBoundary | storage.go:59-63 | a read at age exactly `retention` returns the payload; one time unit later it is MessageExpired |
| Storage.CleanupNoOp | storage.go:73-86 | cleanup leaves an empty store, or one whose head entry is newer than now − retention, unchanged |
| Storage.CleanupEmpties | storage.go:79-85 | cleanup empties the log iff every entry is at or before the cutoff |
| Storage.CleanupShiftsOffsets | storage.go:84-86 | after cleanup, offset i holds the entry formerly at i + k (k = number evicted), and reads at i return what reads at i + k returned before |
| Storage.CleanupIdempotent | storage.go:72-86 | a second cleanup at the same instant changes nothing |
| Storage.EvictionPointCompose | storage.go:73-83 | scanning the survivors of an earlier cutoff up to a later cutoff ends where a single scan of the whole log would |
| Storage.CleanupCompose | storage.go:72-86 | cleanup at t1 then at t2 ≥ t1 equals one cleanup at t2 |
| Storage.PushKeepsSorted | storage.go:41-44 | a push stamped no earlier than the last entry keeps timestamps non-decreasing |
| Storage.CleanupKeepsSorted | storage.go:84-86 | cleanup keeps timestamps non-decreasing |
| Storage.CleanupRemovesExpired | storage.go:59-86 | on a sorted log, every offset a read at `now` reports expired is evicted by a cleanup at `now` |
| Storage.CleanupDropsBoundaryEntry | storage.go:59-86 | a head entry aged exactly `retention` is readable at `now` yet removed by cleanup at `now` |
| Storage.StaleOffsetAliasing | storage.go:37-86 | after a cleanup, a new push reuses offset 1 and a read of offset 1 returns the new payload instead of the one it returned before |
| Registry.NewServer | server.go:32-48 | a server starts with no topics and satisfies the registry invariant |
| Registry.GetStoreForTopic | server.go:87-115 | on a hit, returns the existing store and changes neither map; on a miss, adds exactly this topic to both maps with an empty store of the configured retention and the next cleaner handle, counts one more cleaner started, and leaves every other key and value unchanged |
| Registry.FreshHandle | server.go:104-110 | giving a new topic the next handle keeps handles distinct, below the count started, and one per topic |
| Registry.GetStoreKeepsValid | server.go:87-115 | get-or-create keeps the invariant (equal key sets in both maps, one distinct cleaner handle per topic, as many cleaners started as topics, configured retention everywhere), removes no topic and replaces no handle |
| Registry.GetStoreTwice | server.go:87-115 | a second call for the same topic returns the same store and changes nothing, so no second cleaner is started |
| Registry.Publish | server.go:82-85 | appends the message to its topic's log, creating the topic if needed; returns the old log length; no other topic's log changes |
| Registry.PublishKeepsValid | server.go:82-85 | publish keeps the invariant, removes no topic and replaces no handle |
| Registry.Loop | server.go:66-80 | the loop records one offset per delivery |
| Registry.Appended | server.go:66-85 | the entries the deliveries for a topic leave in its log, one `(payload, instant)` per delivery for it, in arrival order |
| Registry.LoopOffsetStep | server.go:71-72 | one more delivery keeps the offsets already logged and logs the current length of its topic's log |
| Registry.LoopLogStep | server.go:71-72 | one more delivery appends its entry to its own topic's log and leaves every other log unchanged |
| Registry.LoopGrowsLogs | server.go:66-85 | after the loop, each topic's log is its old log followed by exactly the payloads delivered for it, in delivery order, each stamped with its instant |
| Registry.LoopOffsets | server.go:66-85 | with no cleanup in between, the k-th delivery for a topic gets offset (initial length + k − 1), whatever deliveries for other topics are interleaved |
| Registry.LoopDelivers | server.go:66-85 | with no cleanup in between, the offset logged for each delivery is within its topic's final log and holds that delivery's payload and instant |
| Registry.LoopKeepsValid | server.go:66-115 | the loop keeps the registry invariant, removes no topic and replaces no cleaner handle |
| Registry.Consume | producer.go:71-72 | get-or-create then read: adds the topic if it is absent, changes no log, and returns the store read of that topic's log |
| Registry.ConsumeKeepsValid | producer.go:71-72 | consume keeps the invariant, removes no topic and replaces no handle |
| Registry.PublishThenConsume | server.go:82-85 | reading the offset a publish returned, within retention, gives back the published payload and changes nothing |
| Registry.Apply | storage.go:89-104 | a delivery (the publish of server.go:82-85) appends to its topic's log only and adds no topic but its own; a read (the consume of producer.go:71-72) changes no log and adds no topic but its own; a cleaner tick on an existing topic replaces its store by the store's cleanup at that instant, keeps the set of topics and leaves every other log unchanged |
| Registry.ApplyKeepsValid | server.go:82-115 | one publish, consume or cleaner tick keeps the invariant, removes no topic and replaces no handle |
| Registry.RunKeepsValid | server.go:82-115 | the same holds over any sequence of such events |
| Routing.Split | producer.go:35 | splitting yields at least one segment and no segment contains "/" |
| Routing.JoinSplit | producer.go:35 | re-joining the segments with "/" gives back the original string |
| Routing.SplitJoin | producer.go:35 | splitting a "/"-join of slash-free segments gives back those segments |
| Routing.TrimSlash | producer.go:34 | removes at most one leading "/", and removes it whenever it is there |
| Routing.Classify | producer.go:33-88 | 405 exactly for methods other than POST and GET; only a POST yields a publish; only a GET yields a consume or 404 |
| Routing.PublishRoute | producer.go:38-54 | a request is a publish to `t` iff it is a POST whose trimmed path is "publish/" + t with no "/" in t (t may be empty) |
| Routing.ConsumeRoute | producer.go:61-71 | a GET on "consume/t/x" consumes t at the parsed offset, or is 400 when x does not parse |
| Routing.ConsumeRouteSource | producer.go:61-71 | every consume classification comes from a GET on such a path with a parsable offset |
| Routing.OtherGetNotFound | producer.go:61-83 | a GET whose trimmed path is not `consume/<topic>/<text>` with slash-free parts is a 404 |
| Routing.ReadReply | producer.go:72-80 | a store error gives 204 and a success gives 200 with the payload, `Status` giving each reply's HTTP code (202, 200, 204, 400, 404, 405, 500 as written at producer.go:41-86) |
| Routing.Serve | producer.go:33-88 | a message is enqueued, with reply 202, iff the request is a publish and its body was read; a publish whose body could not be read is 500; a rejected route gets its 400, 404 or 405 and changes nothing; only a consume changes the registry, and only by creating its topic when it is new: every log stays the same, an existing topic leaves the registry unchanged, and the invariant is kept; a consume's reply is the read of that topic's log |
| Routing.BadPublishPath | producer.go:38-42 | a POST to any other path is 400, enqueues nothing and changes nothing |
| Routing.ConsumeOffsetParsing | producer.go:61-71 | a consume with an unparsable offset is 400 and leaves the registry untouched; with a parsable one it creates an unknown topic |

## Left out

- `StartRetentionCleaner` (storage.go:89-104): the ticker goroutine and its stop channel are concurrency and wall-clock scheduling. A cleaner tick is modelled as a `Tick` event that may occur at any `now`. Stopping a cleaner is not modelled.
- Locking: the `sync.RWMutex` in the store and the server, and the double-checked creation in `getStoreForTopic`, are not modelled. Every operation is atomic. The unlocked `len(s.data)` read in `Cleanup`'s log line is a race outside the model.
- Channels and goroutines: `Server.Start`, `producech` and `quitch` are not modelled. The dispatch loop is a fold over a finite queue, so shutdown is not modelled.
- HTTP I/O: `ListenAndServe` and response writing are not modelled. Error and success message texts are not modelled. A failed `io.ReadAll` is an absent body, which gives 500.
- `strconv.Atoi` is an abstract partial function `parse` given by the caller.
- main.go: environment loading, `time.ParseDuration` and wiring are not modelled. The store factory becomes the server's `retention` field. `CleanupInterval` only feeds the ticker; its one effect on the model is the assumption in the next line.
- Configuration: the model assumes `CleanupInterval > 0`. Otherwise `time.NewTicker` panics (storage.go:92) inside get-or-create, before the map writes (server.go:107-110), so no topic can be created and the process ends.
- Go paths and topics are byte strings, possibly not valid UTF-8 after percent-decoding. The model uses Dafny strings and reads each byte as one char. Only equality and splitting on "/" are used, so behaviour is unchanged.
- Logging through `slog` and `fmt` has no effect on behaviour and is not modelled.
- Time is an unbounded integer count of nanoseconds. Go's `time.Time` and monotonic readings are not modelled. The saturation of `Sub`/`Add` at the int64 limits is not modelled either.
- Storage.Push: the Go error result is always nil, so the model returns no error component.
- Registry.Loop: the loop's error branch only logs and is never taken, because `Push` cannot fail.
- Payload slices are stored by reference in Go. Mutating a payload after publishing it is not modelled.

## Note on timestamps

`CleanupRemovesExpired` needs push times to be non-decreasing. `PushKeepsSorted` and `CleanupKeepsSorted` show that pushes and cleanups keep that order when the clock does not go backwards.

=== FILE: registry.dfy ===
/**
 The server's topic registry and its dispatch loop. The registry maps each
 topic name to its store and to the stop handle of that store's retention
 cleaner; both maps gain a key together the first time a topic is named and
 never lose one. Every operation is atomic here, and stores are values: the
 identity of a topic's store is the stop handle registered with it.
 */
module Registry {
  import opened Wrappers
  import opened Storage

  /** A publish request as it arrives on the ingestion queue. */
  datatype Message = Message(topic: string, data: Bytes)

  /** The stop channel of one retention cleaner, named by its creation order. */
  type StopHandle = nat

  /**
   `retention` is what every new store is created with; `cleanersStarted`
   counts the retention cleaners started so far.
   */
  datatype Server = Server(
    topics: map<string, MemoryStore>,
    cleanerStops: map<string, StopHandle>,
    retention: int,
    cleanersStarted: nat)

  /**
   Cleaner handles `0 .. started - 1` were handed out one per topic: every
   handle is below `started`, no two topics share one, and there are as many
   topics as handles.
   */
  ghost predicate OneCleanerPerTopic(stops: map<string, StopHandle>, started: nat)
  {
    && |stops| == started
    && (forall t :: t in stops ==> stops[t] < started)
    && (forall t, u :: t in stops && u in stops && t != u ==> stops[t] != stops[u])
  }

  /**
   The registry's invariant: the two maps have the same topics, exactly one
   cleaner was started per topic, and every store carries the configured
   retention.
   */
  ghost predicate Valid(s: Server)
  {
    && s.topics.Keys == s.cleanerStops.Keys
    && OneCleanerPerTopic(s.cleanerStops, s.cleanersStarted)
    && (forall t :: t in s.topics ==> s.topics[t].retention == s.retention)
  }

  /** How `s2` may relate to an earlier state `s1`: no topic is removed and no topic's cleaner handle is replaced. */
  ghost predicate Grows(s1: Server, s2: Server)
  {
    && s1.topics.Keys <= s2.topics.Keys
    && (forall t :: t in s1.cleanerStops ==> t in s2.cleanerStops && s2.cleanerStops[t] == s1.cleanerStops[t])
    && s2.retention == s1.retention
  }

  /** The log held for `topic`, empty if the topic has not been created. */
  function Log(s: Server, topic: string): seq<StoredMessage>
  {
    if topic in s.topics then s.topics[topic].data else []
  }

  /** A server with no topics satisfies the registry invariant. */
  function NewServer(retention: int): (s: Server)
    ensures Valid(s)
    ensures s.retention == retention
    ensures forall t :: Log(s, t) == []
  {
    Server(map[], map[], retention, 0)
  }

  /** What get-or-create hands back: the registry after the call and the topic's store. */
  datatype Lookup = Lookup(server: Server, store: MemoryStore)

  /**
   Get-or-create: an existing topic's store is returned and nothing changes;
   otherwise a new empty store and a new cleaner handle are registered under
   exactly this topic, leaving every other topic as it was.
   */
  function GetStoreForTopic(s: Server, topic: string): (r: Lookup)
    ensures topic in r.server.topics && r.store == r.server.topics[topic]
    ensures topic in s.topics ==> r.server == s
    ensures topic !in s.topics ==>
              && r.store.data == [] && r.store.retention == s.retention
              && r.server.topics.Keys == s.topics.Keys + {topic}
              && r.server.cleanerStops.Keys == s.cleanerStops.Keys + {topic}
              && r.server.cleanersStarted == s.cleanersStarted + 1
              && r.server.cleanerStops[topic] == s.cleanersStarted
    ensures forall t :: t != topic && t in s.topics ==> r.server.topics[t] == s.topics[t]
    ensures forall t :: t != topic && t in s.cleanerStops ==> r.server.cleanerStops[t] == s.cleanerStops[t]
    ensures r.server.retention == s.retention
  {
    if topic in s.topics then
      Lookup(s, s.topics[topic])
    else
      var store := NewMemoryStore(s.retention);
      var stop := s.cleanersStarted;
      Lookup(s.(topics := s.topics[topic := store],
                cleanerStops := s.cleanerStops[topic := stop],
                cleanersStarted := s.cleanersStarted + 1),
             store)
  }

  /** A second get-or-create of the same topic returns the same store and starts no cleaner. */
  lemma GetStoreTwice(s: Server, topic: string)
    ensures var first := GetStoreForTopic(s, topic);
            GetStoreForTopic(first.server, topic) == first
  {
  }

  /** Registering the next handle under a new topic keeps one cleaner per topic. */
  lemma FreshHandle(stops: map<string, StopHandle>, started: nat, topic: string)
    requires OneCleanerPerTopic(stops, started)
    requires topic !in stops
    ensures OneCleanerPerTopic(stops[topic := started], started + 1)
  {
    assert |stops[topic := started]| == |stops| + 1;
  }

  /**
   Get-or-create keeps the registry invariant: on a miss the new topic gets
   the next handle, which no other topic holds, so both maps still agree and
   one cleaner has been started per topic.
   */
  lemma GetStoreKeepsValid(s: Server, topic: string)
    requires Valid(s)
    ensures Valid(GetStoreForTopic(s, topic).server) && Grows(s, GetStoreForTopic(s, topic).server)
  {
    if topic !in s.topics {
      FreshHandle(s.cleanerStops, s.cleanersStarted, topic);
    }
  }

  /** What a publish hands back: the registry after the push and the offset assigned. */
  datatype Published = Published(server: Server, offset: int)

  /**
   Publishes through get-or-create and push: the message is appended to its
   topic's log, creating the topic if needed; the result is the previous
   length of that log, and no other topic's log changes.
   */
  function Publish(s: Server, msg: Message, now: int): (r: Published)
    ensures Log(r.server, msg.topic) == Log(s, msg.topic) + [StoredMessage(msg.data, now)]
    ensures r.offset == |Log(s, msg.topic)|
    ensures forall t :: t != msg.topic ==> Log(r.server, t) == Log(s, t)
    ensures r.server.topics.Keys == s.topics.Keys + {msg.topic}
  {
    var found := GetStoreForTopic(s, msg.topic);
    var pushed := Push(found.store, msg.data, now);
    Published(found.server.(topics := found.server.topics[msg.topic := pushed.store]), pushed.offset)
  }

  /** Publishing keeps the registry invariant, removes no topic and replaces no cleaner handle. */
  lemma PublishKeepsValid(s: Server, msg: Message, now: int)
    requires Valid(s)
    ensures Valid(Publish(s, msg, now).server) && Grows(s, Publish(s, msg, now).server)
  {
    GetStoreKeepsValid(s, msg.topic);
    var found := GetStoreForTopic(s, msg.topic);
    var pushed := Push(found.store, msg.data, now);
    assert Publish(s, msg, now).server == found.server.(topics := found.server.topics[msg.topic := pushed.store]);
  }

  /** A message handed to the dispatch loop together with the instant it is handled. */
  datatype Delivery = Delivery(msg: Message, now: int)

  /** What the loop leaves behind: the registry and the offset logged for each delivery. */
  datatype Looped = Looped(server: Server, offsets: seq<int>)

  /**
   The dispatch loop over a queue: each delivery is published in order and
   its offset recorded.
   */
  function Loop(s: Server, inbox: seq<Delivery>): (r: Looped)
    ensures |r.offsets| == |inbox|
    decreases |inbox|
  {
    if |inbox| == 0 then Looped(s, [])
    else
      var before := Loop(s, inbox[..|inbox| - 1]);
      var last := inbox[|inbox| - 1];
      var published := Publish(before.server, last.msg, last.now);
      Looped(published.server, before.offsets + [published.offset])
  }

  /** Taking `j` elements of the first `n` is taking `j`. */
  lemma PrefixOfPrefix(inbox: seq<Delivery>, n: int, j: int)
    requires 0 <= j <= n <= |inbox|
    ensures inbox[..n][..j] == inbox[..j]
    ensures j < n ==> inbox[..n][j] == inbox[j]
  {
  }

  /** Concatenation of logs is associative. */
  lemma AppendAssoc(a: seq<StoredMessage>, b: seq<StoredMessage>, c: seq<StoredMessage>)
    ensures (a + b) + c == a + (b + c)
  {
  }

  /** How many deliveries in `inbox` are for `topic`. */
  function Count(inbox: seq<Delivery>, topic: string): nat
    decreases |inbox|
  {
    if |inbox| == 0 then 0
    else Count(inbox[..|inbox| - 1], topic) + (if inbox[|inbox| - 1].msg.topic == topic then 1 else 0)
  }

  /**
   The entries the deliveries for `topic` leave in its log, in delivery
   order: one per delivery, each its payload stamped with its instant.
   */
  function Appended(inbox: seq<Delivery>, topic: string): (r: seq<StoredMessage>)
    ensures |r| == Count(inbox, topic)
    decreases |inbox|
  {
    if |inbox| == 0 then []
    else
      var last := inbox[|inbox| - 1];
      Appended(inbox[..|inbox| - 1], topic) + (if last.msg.topic == topic then [StoredMessage(last.msg.data, last.now)] else [])
  }

  /** One more delivery: its offset is the current length of its topic's log. */
  lemma LoopOffsetStep(s: Server, inbox: seq<Delivery>)
    requires |inbox| > 0
    ensures var before := Loop(s, inbox[..|inbox| - 1]);
            Loop(s, inbox).offsets == before.offsets + [|Log(before.server, inbox[|inbox| - 1].msg.topic)|]
  {
  }

  /** One more delivery: only its topic's log grows, by its entry. */
  lemma LoopLogStep(s: Server, inbox: seq<Delivery>, topic: string)
    requires |inbox| > 0
    ensures var before := Loop(s, inbox[..|inbox| - 1]);
            var last := inbox[|inbox| - 1];
            Log(Loop(s, inbox).server, topic) ==
              Log(before.server, topic) + (if last.msg.topic == topic then [StoredMessage(last.msg.data, last.now)] else [])
  {
    var before := Loop(s, inbox[..|inbox| - 1]);
    var last := inbox[|inbox| - 1];
    var published := Publish(before.server, last.msg, last.now);
    assert Loop(s, inbox).server == published.server;
  }

  /**
   After the loop, each topic's log is its old log followed by the payloads
   delivered for it, in delivery order; so it has grown by exactly the number
   of deliveries for it.
   */
  lemma {:induction false} LoopGrowsLogs(s: Server, inbox: seq<Delivery>, topic: string)
    ensures Log(Loop(s, inbox).server, topic) == Log(s, topic) + Appended(inbox, topic)
    decreases |inbox|
  {
    if |inbox| > 0 {
      var prefix := inbox[..|inbox| - 1];
      var last := inbox[|inbox| - 1];
      var entry := if last.msg.topic == topic then [StoredMessage(last.msg.data, last.now)] else [];
      assert Appended(inbox, topic) == Appended(prefix, topic) + entry;
      var before := Log(Loop(s, prefix).server, topic);
      assert before == Log(s, topic) + Appended(prefix, topic) by {
        LoopGrowsLogs(s, prefix, topic);
      }
      assert Log(Loop(s, inbox).server, topic) == before + entry by {
        LoopLogStep(s, inbox, topic);
      }
      AppendAssoc(Log(s, topic), Appended(prefix, topic), entry);
    }
  }

  /** The offset the loop logs for the last delivery is the topic's initial length plus its earlier deliveries. */
  lemma LoopLastOffset(s: Server, inbox: seq<Delivery>)
    requires |inbox| > 0
    ensures var n := |inbox| - 1;
            Loop(s, inbox).offsets[n] == |Log(s, inbox[n].msg.topic)| + Count(inbox[..n], inbox[n].msg.topic)
  {
    var n := |inbox| - 1;
    LoopOffsetStep(s, inbox);
    LoopGrowsLogs(s, inbox[..n], inbox[n].msg.topic);
  }

  /** A later delivery does not change the offsets already logged. */
  lemma LoopEarlierOffset(s: Server, inbox: seq<Delivery>, i: int)
    requires 0 <= i < |inbox| - 1
    ensures Loop(s, inbox).offsets[i] == Loop(s, inbox[..|inbox| - 1]).offsets[i]
  {
    LoopOffsetStep(s, inbox);
  }

  /**
   Offsets assigned by the loop: with no cleanup in between, the k-th
   delivery for a topic (counting from 1) gets that topic's initial log
   length plus k - 1, whatever deliveries for other topics are interleaved.
   */
  lemma {:induction false} LoopOffsets(s: Server, inbox: seq<Delivery>, i: int)
    requires 0 <= i < |inbox|
    ensures Loop(s, inbox).offsets[i] == |Log(s, inbox[i].msg.topic)| + Count(inbox[..i], inbox[i].msg.topic)
    decreases |inbox|
  {
    var n := |inbox| - 1;
    if i < n {
      LoopEarlierOffset(s, inbox, i);
      LoopOffsets(s, inbox[..n], i);
      PrefixOfPrefix(inbox, n, i);
    } else {
      LoopLastOffset(s, inbox);
    }
  }

  /** The entries of a prefix of the queue come first among the entries of the whole queue. */
  lemma {:induction false} AppendedPrefix(inbox: seq<Delivery>, j: int, topic: string)
    requires 0 <= j <= |inbox|
    ensures Appended(inbox[..j], topic) <= Appended(inbox, topic)
    decreases |inbox|
  {
    if j < |inbox| {
      var n := |inbox| - 1;
      AppendedPrefix(inbox[..n], j, topic);
      PrefixOfPrefix(inbox, n, j);
    } else {
      assert inbox[..j] == inbox;
    }
  }

  /**
   Read-after-write through the loop: with no cleanup in between, the offset
   logged for each delivery holds that delivery's payload and instant in its
   topic's log once the loop is done.
   */
  lemma LoopDelivers(s: Server, inbox: seq<Delivery>, i: int)
    requires 0 <= i < |inbox|
    ensures var r := Loop(s, inbox);
            var topic := inbox[i].msg.topic;
            && 0 <= r.offsets[i] < |Log(r.server, topic)|
            && Log(r.server, topic)[r.offsets[i]] == StoredMessage(inbox[i].msg.data, inbox[i].now)
  {
    var topic := inbox[i].msg.topic;
    LoopOffsets(s, inbox, i);
    LoopGrowsLogs(s, inbox, topic);
    AppendedPrefix(inbox, i + 1, topic);
    PrefixOfPrefix(inbox, i + 1, i);
    var upTo := Appended(inbox[..i], topic);
    assert Appended(inbox[..i + 1], topic) == upTo + [StoredMessage(inbox[i].msg.data, inbox[i].now)];
    assert Appended(inbox, topic)[|upTo|] == StoredMessage(inbox[i].msg.data, inbox[i].now);
  }

  /** The loop keeps the registry invariant, removes no topic and replaces no cleaner handle. */
  lemma {:induction false} LoopKeepsValid(s: Server, inbox: seq<Delivery>)
    requires Valid(s)
    ensures Valid(Loop(s, inbox).server) && Grows(s, Loop(s, inbox).server)
    decreases |inbox|
  {
    if |inbox| > 0 {
      LoopKeepsValid(s, inbox[..|inbox| - 1]);
      var before := Loop(s, inbox[..|inbox| - 1]).server;
      PublishKeepsValid(before, inbox[|inbox| - 1].msg, inbox[|inbox| - 1].now);
    }
  }

  /** What a consume hands back: the registry after get-or-create and the store's answer. */
  datatype Consumed = Consumed(server: Server, result: Result<Bytes, GetError>)

  /**
   The consume path: get-or-create the topic (so reading an unknown topic
   creates it), then read the offset from its store.
   */
  function Consume(s: Server, topic: string, offset: int, now: int): (r: Consumed)
    ensures r.server.topics.Keys == s.topics.Keys + {topic}
    ensures topic in s.topics ==> r.server == s
    ensures forall t :: Log(r.server, t) == Log(s, t)
    ensures Valid(s) ==> r.result == Get(MemoryStore(Log(s, topic), s.retention), offset, now)
  {
    var found := GetStoreForTopic(s, topic);
    Consumed(found.server, Get(found.store, offset, now))
  }

  /** A consume keeps the registry invariant, removes no topic and replaces no cleaner handle. */
  lemma ConsumeKeepsValid(s: Server, topic: string, offset: int, now: int)
    requires Valid(s)
    ensures Valid(Consume(s, topic, offset, now).server) && Grows(s, Consume(s, topic, offset, now).server)
  {
    GetStoreKeepsValid(s, topic);
  }

  /**
   Read-after-write through the registry: the offset a publish returns
   reads back the published payload for as long as it is within retention.
   */
  lemma PublishThenConsume(s: Server, msg: Message, t: int, now: int)
    requires Valid(s)
    requires now - t <= s.retention
    ensures var published := Publish(s, msg, t);
            Consume(published.server, msg.topic, published.offset, now) == Consumed(published.server, Success(msg.data))
  {
    var published := Publish(s, msg, t);
    PublishKeepsValid(s, msg, t);
    assert Log(published.server, msg.topic)[published.offset] == StoredMessage(msg.data, t);
  }

  /** Everything that touches the registry: a queued publish, a consume, or a cleaner tick on one topic. */
  datatype Event =
    | Deliver(msg: Message, now: int)
    | Read(topic: string, offset: int, now: int)
    | Tick(topic: string, now: int)

  /**
   The effect of one event. A tick runs cleanup on an existing topic's
   store; a topic with no store has no cleaner, so a tick there does nothing.
   */
  function Apply(s: Server, e: Event): (r: Server)
    ensures e.Deliver? ==> Log(r, e.msg.topic) == Log(s, e.msg.topic) + [StoredMessage(e.msg.data, e.now)]
    ensures !e.Deliver? ==> forall t :: t != e.topic ==> Log(r, t) == Log(s, t)
    ensures e.Deliver? ==> forall t :: t != e.msg.topic ==> Log(r, t) == Log(s, t)
    ensures e.Read? ==> Log(r, e.topic) == Log(s, e.topic)
    ensures e.Deliver? ==> r.topics.Keys == s.topics.Keys + {e.msg.topic}
    ensures e.Read? ==> r.topics.Keys == s.topics.Keys + {e.topic}
    ensures e.Tick? ==> r.topics.Keys == s.topics.Keys
    ensures e.Tick? && e.topic in s.topics ==> r.topics[e.topic] == Cleanup(s.topics[e.topic], e.now)
  {
    match e
    case Deliver(msg, now) => Publish(s, msg, now).server
    case Read(topic, offset, now) => Consume(s, topic, offset, now).server
    case Tick(topic, now) =>
      if topic in s.topics then s.(topics := s.topics[topic := Cleanup(s.topics[topic], now)]) else s
  }

  /** Each event keeps the registry invariant, removes no topic and replaces no cleaner handle. */
  lemma ApplyKeepsValid(s: Server, e: Event)
    requires Valid(s)
    ensures Valid(Apply(s, e)) && Grows(s, Apply(s, e))
  {
    match e
    case Deliver(msg, now) => PublishKeepsValid(s, msg, now);
    case Read(topic, offset, now) => ConsumeKeepsValid(s, topic, offset, now);
    case Tick(topic, now) =>
  }

  /** Events applied one after another. */
  function Run(s: Server, events: seq<Event>): Server
    decreases |events|
  {
    if |events| == 0 then s else Run(Apply(s, events[0]), events[1..])
  }

  /**
   Over any interleaving of publishes, consumes and cleaner ticks, the
   registry invariant holds, no topic is removed and no topic's cleaner
   handle is replaced.
   */
  lemma {:induction false} RunKeepsValid(s: Server, events: seq<Event>)
    requires Valid(s)
    ensures Valid(Run(s, events)) && Grows(s, Run(s, events))
    decreases |events|
  {
    if |events| > 0 {
      ApplyKeepsValid(s, events[0]);
      RunKeepsValid(Apply(s, events[0]), events[1..]);
    }
  }
}

=== FILE: routing.dfy ===
/**
 Classification of HTTP requests: a method and a URL path are turned into a
 publish, a consume or an error status, and store results are turned into
 response statuses. Integer parsing of the offset segment is an abstract
 partial function supplied by the caller.
 */
module Routing {
  import opened Wrappers
  import opened Storage
  import opened Registry

  /** Splits on every "/", as Go's strings.Split does; the empty string gives one empty segment. */
  function Split(s: string): (parts: seq<string>)
    ensures |parts| >= 1
    ensures forall i :: 0 <= i < |parts| ==> '/' !in parts[i]
    decreases |s|
  {
    if |s| == 0 then [""]
    else if s[0] == '/' then [""] + Split(s[1..])
    else
      var rest := Split(s[1..]);
      [[s[0]] + rest[0]] + rest[1..]
  }

  /** Glues segments back together with "/" between them; the inverse of `Split`. */
  function Join(parts: seq<string>): string
    requires |parts| >= 1
    decreases |parts|
  {
    if |parts| == 1 then parts[0] else parts[0] + "/" + Join(parts[1..])
  }

  lemma {:induction false} JoinSplit(s: string)
    ensures Join(Split(s)) == s
    decreases |s|
  {
    if |s| == 0 {
    } else if s[0] == '/' {
      JoinSplit(s[1..]);
      assert ([""] + Split(s[1..]))[1..] == Split(s[1..]);
    } else {
      var rest := Split(s[1..]);
      JoinSplit(s[1..]);
      var parts := [[s[0]] + rest[0]] + rest[1..];
      if |rest| == 1 {
        assert Join(parts) == [s[0]] + rest[0];
      } else {
        assert parts[1..] == rest[1..];
        assert Join(rest) == rest[0] + "/" + Join(rest[1..]);
        assert Join(parts) == [s[0]] + rest[0] + "/" + Join(rest[1..]);
      }
      assert s == [s[0]] + s[1..];
    }
  }

  /** Segments without "/" survive a join followed by a split. */
  lemma {:induction false} SplitJoin(parts: seq<string>)
    requires |parts| >= 1
    requires forall i :: 0 <= i < |parts| ==> '/' !in parts[i]
    ensures Split(Join(parts)) == parts
    decreases |parts|, |parts[0]|
  {
    if |parts[0]| == 0 {
      if |parts| > 1 {
        SplitJoin(parts[1..]);
        assert Join(parts) == "/" + Join(parts[1..]);
        assert Join(parts)[1..] == Join(parts[1..]);
      }
    } else {
      var c := parts[0][0];
      var tail := [parts[0][1..]] + parts[1..];
      assert tail[1..] == parts[1..];
      SplitJoin(tail);
      if |parts| == 1 {
        assert Join(parts)[1..] == Join(tail);
      } else {
        assert Join(parts) == [c] + Join(tail) by {
          assert parts[0] == [c] + parts[0][1..];
        }
        assert Join(parts)[1..] == Join(tail);
      }
      assert parts[0] == [c] + tail[0];
    }
  }

  /** Removes at most one leading "/". */
  function TrimSlash(path: string): (r: string)
    ensures path == r || path == "/" + r
    ensures |path| > 0 && path[0] == '/' ==> path == "/" + r
  {
    if |path| > 0 && path[0] == '/' then path[1..] else path
  }

  datatype StatusCode = BadRequest | NotFound | MethodNotAllowed

  /** What a request asks for once its method and path are classified. */
  datatype Route =
    | PublishTo(topic: string)
    | ConsumeFrom(topic: string, offset: int)
    | Reject(status: StatusCode)

  /**
   POST accepts exactly the two-segment path `publish/<topic>` (the topic may
   be empty); GET accepts `consume/<topic>/<offset>` with a parsable offset,
   answers 400 for an unparsable one and 404 for any other path; every
   other method gets 405.
   */
  function Classify(verb: string, path: string, parse: string -> Option<int>): (r: Route)
    ensures r == Reject(MethodNotAllowed) <==> verb != "POST" && verb != "GET"
    ensures r.PublishTo? ==> verb == "POST"
    ensures r.ConsumeFrom? ==> verb == "GET"
    ensures r == Reject(NotFound) ==> verb == "GET"
  {
    var parts := Split(TrimSlash(path));
    if verb == "POST" then
      if |parts| != 2 || parts[0] != "publish" then Reject(BadRequest)
      else PublishTo(parts[1])
    else if verb == "GET" then
      if |parts| == 3 && parts[0] == "consume" then
        match parse(parts[2])
        case None => Reject(BadRequest)
        case Some(offset) => ConsumeFrom(parts[1], offset)
      else Reject(NotFound)
    else Reject(MethodNotAllowed)
  }

  /**
   A request is classified as a publish to `topic` exactly when it is a POST
   whose path, less one leading "/", is "publish/" followed by a topic
   containing no "/".
   */
  lemma PublishRoute(verb: string, path: string, parse: string -> Option<int>, topic: string)
    ensures Classify(verb, path, parse) == PublishTo(topic) <==>
              verb == "POST" && TrimSlash(path) == "publish/" + topic && '/' !in topic
  {
    var p := TrimSlash(path);
    if verb == "POST" && p == "publish/" + topic && '/' !in topic {
      assert Join(["publish", topic]) == p;
      SplitJoin(["publish", topic]);
    }
    if Classify(verb, path, parse) == PublishTo(topic) {
      var parts := Split(p);
      JoinSplit(p);
      assert Join(parts) == parts[0] + "/" + Join(parts[1..]);
      assert parts[1..] == [topic];
    }
  }

  /**
   A GET for `consume/<topic>/<text>`, with no "/" inside the topic or the
   text, consumes at the parsed offset, or is a 400 when the text does not
   parse.
   */
  lemma ConsumeRoute(path: string, parse: string -> Option<int>, topic: string, text: string)
    requires '/' !in topic && '/' !in text
    requires TrimSlash(path) == "consume/" + topic + "/" + text
    ensures Classify("GET", path, parse) ==
              match parse(text)
              case None => Reject(BadRequest)
              case Some(offset) => ConsumeFrom(topic, offset)
  {
    var parts := ["consume", topic, text];
    assert parts[1..][1..] == [text];
    assert Join(parts[1..]) == topic + "/" + text;
    assert Join(parts) == "consume" + "/" + (topic + "/" + text);
    assert Join(parts) == TrimSlash(path);
    SplitJoin(parts);
  }

  /** Three segments joined with "/". */
  lemma JoinThree(parts: seq<string>)
    requires |parts| == 3
    ensures Join(parts) == parts[0] + "/" + parts[1] + "/" + parts[2]
  {
    assert parts[1..][1..] == [parts[2]];
    assert Join(parts[1..]) == parts[1] + "/" + parts[2];
    assert Join(parts) == parts[0] + "/" + (parts[1] + "/" + parts[2]);
  }

  /** Conversely, every consume route comes from such a path. */
  lemma ConsumeRouteSource(verb: string, path: string, parse: string -> Option<int>, topic: string, offset: int)
    requires Classify(verb, path, parse) == ConsumeFrom(topic, offset)
    ensures verb == "GET" && '/' !in topic
    ensures exists text :: '/' !in text && parse(text) == Some(offset) &&
              TrimSlash(path) == "consume/" + topic + "/" + text
  {
    var p := TrimSlash(path);
    var parts := Split(p);
    assert |parts| == 3 && parts[0] == "consume" && parts[1] == topic && parse(parts[2]) == Some(offset);
    JoinSplit(p);
    JoinThree(parts);
    var text := parts[2];
    assert '/' !in text;
    assert p == "consume/" + topic + "/" + text;
  }

  /** `p` is `consume/<topic>/<text>` with no "/" inside the topic or the text. */
  predicate IsConsumePath(p: string, topic: string, text: string)
  {
    '/' !in topic && '/' !in text && p == "consume/" + topic + "/" + text
  }

  /** A GET whose path does not have the shape `consume/<topic>/<text>` is a 404. */
  lemma OtherGetNotFound(path: string, parse: string -> Option<int>)
    requires forall topic, text :: !IsConsumePath(TrimSlash(path), topic, text)
    ensures Classify("GET", path, parse) == Reject(NotFound)
  {
    var p := TrimSlash(path);
    var parts := Split(p);
    if |parts| == 3 && parts[0] == "consume" {
      JoinSplit(p);
      JoinThree(parts);
      assert IsConsumePath(p, parts[1], parts[2]);
      assert false;
    }
  }

  /** The HTTP side of a request: the body is None when reading it failed. */
  datatype Request = Request(verb: string, path: string, body: Option<Bytes>)

  /** The response statuses the transport writes. */
  datatype Reply =
    | Accepted
    | Ok(payload: Bytes)
    | NoContent
    | Error(status: StatusCode)
    | InternalServerError

  function Status(reply: Reply): int
  {
    match reply
    case Accepted => 202
    case Ok(_) => 200
    case NoContent => 204
    case Error(BadRequest) => 400
    case Error(NotFound) => 404
    case Error(MethodNotAllowed) => 405
    case InternalServerError => 500
  }

  /** The response to a store read: any error is 204, a payload is 200 with that payload. */
  function ReadReply(r: Result<Bytes, GetError>): (reply: Reply)
    ensures Status(reply) == 200 <==> r.Success?
    ensures Status(reply) == 204 <==> r.Failure?
    ensures r.Success? ==> reply == Ok(r.value)
  {
    match r
    case Success(payload) => Ok(payload)
    case Failure(_) => NoContent
  }

  /** The outcome of one request: the registry afterwards, the reply, and the message handed to the dispatch loop, if any. */
  datatype Served = Served(server: Server, reply: Reply, enqueued: Option<Message>)

  /**
   Serves one request against the registry at instant `now`. A publish only
   enqueues a message for the dispatch loop and leaves the registry alone; a
   consume goes through get-or-create and then the store read; every other
   request is answered with an error status and changes nothing.
   */
  function Serve(s: Server, req: Request, now: int, parse: string -> Option<int>): (r: Served)
    ensures r.enqueued.Some? <==> Classify(req.verb, req.path, parse).PublishTo? && req.body.Some?
    ensures r.enqueued.Some? ==>
              && r.enqueued.value == Message(Classify(req.verb, req.path, parse).topic, req.body.value)
              && r.reply == Accepted
    ensures Classify(req.verb, req.path, parse).PublishTo? && req.body.None? ==>
              r == Served(s, InternalServerError, None)
    ensures Classify(req.verb, req.path, parse).Reject? ==>
              r == Served(s, Error(Classify(req.verb, req.path, parse).status), None)
    ensures !Classify(req.verb, req.path, parse).ConsumeFrom? ==> r.server == s
    ensures Classify(req.verb, req.path, parse).ConsumeFrom? ==>
              var route := Classify(req.verb, req.path, parse);
              && r.server.topics.Keys == s.topics.Keys + {route.topic}
              && (forall t :: Log(r.server, t) == Log(s, t))
              && (route.topic in s.topics ==> r.server == s)
              && (Valid(s) ==> Valid(r.server) && Grows(s, r.server))
              && (Valid(s) ==> r.reply == ReadReply(Get(MemoryStore(Log(s, route.topic), s.retention), route.offset, now)))
  {
    match Classify(req.verb, req.path, parse)
    case Reject(status) => Served(s, Error(status), None)
    case PublishTo(topic) =>
      (match req.body
       case None => Served(s, InternalServerError, None)
       case Some(body) => Served(s, Accepted, Some(Message(topic, body))))
    case ConsumeFrom(topic, offset) =>
      var consumed := Consume(s, topic, offset, now);
      Served(consumed.server, ReadReply(consumed.result), None)
  }

  /** A POST to any path other than `publish/<topic>` is a 400 that enqueues nothing and changes nothing. */
  lemma BadPublishPath(s: Server, req: Request, now: int, parse: string -> Option<int>)
    requires req.verb == "POST"
    requires forall topic :: TrimSlash(req.path) != "publish/" + topic || '/' in topic
    ensures Serve(s, req, now, parse) == Served(s, Error(BadRequest), None)
  {
    var route := Classify(req.verb, req.path, parse);
    if route.PublishTo? {
      PublishRoute(req.verb, req.path, parse, route.topic);
      assert false;
    }
  }

  /**
   A GET on `consume/<topic>/<text>` whose text does not parse is a 400 that
   leaves the registry untouched; one that parses creates the topic if it is
   unknown.
   */
  lemma ConsumeOffsetParsing(s: Server, req: Request, now: int, parse: string -> Option<int>, topic: string, text: string)
    requires req.verb == "GET"
    requires '/' !in topic && '/' !in text
    requires TrimSlash(req.path) == "consume/" + topic + "/" + text
    ensures parse(text).None? ==> Serve(s, req, now, parse) == Served(s, Error(BadRequest), None)
    ensures parse(text).Some? ==> topic in Serve(s, req, now, parse).server.topics
  {
    ConsumeRoute(req.path, parse, topic, text);
  }
}

=== FILE: storage.dfy ===
/**
 The in-memory log of one topic: an ordered sequence of stored messages and a
 fixed retention window. Offsets are raw positions in the sequence, so an
 eviction renumbers every surviving entry. The clock is an explicit integer
 `now` (nanoseconds) passed to each operation that reads it.
 */
module Storage {
  import opened Wrappers

  newtype Byte = b: int | 0 <= b < 256
  type Bytes = seq<Byte>

  /** A payload together with the instant it was received. */
  datatype StoredMessage = StoredMessage(data: Bytes, timestamp: int)

  /** One topic's log. `retention` is fixed when the store is created. */
  datatype MemoryStore = MemoryStore(data: seq<StoredMessage>, retention: int)

  /** What a push hands back: the grown store and the new entry's offset. */
  datatype Pushed = Pushed(store: MemoryStore, offset: int)

  /** The three ways a read by offset fails. */
  datatype GetError = NegativeOffset | OffsetTooHigh | MessageExpired

  /** A read treats a message as expired only when its age is strictly greater than the retention. */
  predicate IsExpired(m: StoredMessage, retention: int, now: int)
  {
    now - m.timestamp > retention
  }

  /** Cleanup keeps exactly the entries received strictly after this instant. */
  function Cutoff(retention: int, now: int): int
  {
    now - retention
  }

  /** Timestamps never decrease along the log (holds when pushes follow the clock). */
  ghost predicate Sorted(data: seq<StoredMessage>)
  {
    forall i, j :: 0 <= i <= j < |data| ==> data[i].timestamp <= data[j].timestamp
  }

  /** A fresh store: no entries, and the retention it was created with. */
  function NewMemoryStore(retention: int): MemoryStore
  {
    MemoryStore([], retention)
  }

  /**
   Appends the payload, stamped with `now`, at the tail and returns its
   position, which is the length of the log before the push.
   */
  function Push(s: MemoryStore, payload: Bytes, now: int): (r: Pushed)
    ensures r.store.retention == s.retention
    ensures |r.store.data| == |s.data| + 1 && r.offset == |r.store.data| - 1
    ensures r.store.data[..|s.data|] == s.data
    ensures r.store.data[r.offset] == StoredMessage(payload, now)
  {
    Pushed(s.(data := s.data + [StoredMessage(payload, now)]), |s.data|)
  }

  /**
   Reads the payload at `offset`: a negative offset fails first, then an
   offset past the tail, then an entry older than the retention window.
   */
  function Get(s: MemoryStore, offset: int, now: int): (r: Result<Bytes, GetError>)
    ensures r == Failure(NegativeOffset) <==> offset < 0
    ensures r == Failure(OffsetTooHigh) <==> 0 <= offset && |s.data| <= offset
    ensures r == Failure(MessageExpired) <==>
              0 <= offset < |s.data| && IsExpired(s.data[offset], s.retention, now)
    ensures r.Success? <==> 0 <= offset < |s.data| && !IsExpired(s.data[offset], s.retention, now)
    ensures r.Success? ==> r.value == s.data[offset].data
  {
    if offset < 0 then Failure(NegativeOffset)
    else if |s.data| - 1 < offset then Failure(OffsetTooHigh)
    else if IsExpired(s.data[offset], s.retention, now) then Failure(MessageExpired)
    else Success(s.data[offset].data)
  }

  /**
   The number of leading entries received at or before `cutoff`: the first
   position holding a later entry, or the length of the log if there is none.
   */
  function EvictionPoint(data: seq<StoredMessage>, cutoff: int): (k: nat)
    ensures k <= |data|
    ensures forall i :: 0 <= i < k ==> data[i].timestamp <= cutoff
    ensures k < |data| ==> data[k].timestamp > cutoff
  {
    if |data| == 0 then 0
    else if data[0].timestamp > cutoff then 0
    else 1 + EvictionPoint(data[1..], cutoff)
  }

  /** Any position with the two defining properties is the eviction point. */
  lemma EvictionPointUnique(data: seq<StoredMessage>, cutoff: int, k: nat)
    requires k <= |data|
    requires forall i :: 0 <= i < k ==> data[i].timestamp <= cutoff
    requires k < |data| ==> data[k].timestamp > cutoff
    ensures EvictionPoint(data, cutoff) == k
  {
  }

  /**
   Drops the prefix of entries received at or before `now - retention`.
   What remains is a suffix of the log whose first entry, if any, is newer
   than the cutoff; surviving entries move to lower positions.
   */
  function Cleanup(s: MemoryStore, now: int): (r: MemoryStore)
    ensures r.retention == s.retention
    ensures |r.data| <= |s.data|
    ensures r.data == s.data[|s.data| - |r.data|..]
    ensures forall i :: 0 <= i < |s.data| - |r.data| ==>
              s.data[i].timestamp <= Cutoff(s.retention, now)
    ensures |r.data| > 0 ==> r.data[0].timestamp > Cutoff(s.retention, now)
  {
    s.(data := s.data[EvictionPoint(s.data, Cutoff(s.retention, now))..])
  }

  /**
   The cleanup scan as the store performs it: walk from the head, stop at
   the first entry after the cutoff, and mark the whole log for removal if
   the last entry is reached without finding one.
   */
  method CleanupScan(s: MemoryStore, now: int) returns (r: MemoryStore)
    ensures r == Cleanup(s, now)
  {
    var cutoff := now - s.retention;
    var idx := 0;
    var i := 0;
    while i < |s.data|
      invariant 0 <= i <= |s.data|
      invariant idx == (if i == |s.data| then i else 0)
      invariant forall j :: 0 <= j < i ==> s.data[j].timestamp <= cutoff
    {
      if s.data[i].timestamp > cutoff {
        idx := i;
        break;
      }
      if i == |s.data| - 1 && !(s.data[i].timestamp > cutoff) {
        idx := |s.data|;
      }
      i := i + 1;
    }
    EvictionPointUnique(s.data, cutoff, idx);
    if idx > 0 {
      r := s.(data := s.data[idx..]);
    } else {
      r := s;
    }
  }

  /** Every read of a fresh store fails: negative offsets as such, all others as too high. */
  lemma NewStoreReadsFail(retention: int, offset: int, now: int)
    ensures Get(NewMemoryStore(retention), offset, now) ==
              Failure(if offset < 0 then NegativeOffset else OffsetTooHigh)
  {
  }

  /** Pushing keeps every earlier offset's read result, and reading the new offset returns the payload unless it has aged past the retention. */
  lemma PushThenGet(s: MemoryStore, payload: Bytes, t: int, offset: int, now: int)
    ensures var pushed := Push(s, payload, t);
            Get(pushed.store, pushed.offset, now) == (if now - t > s.retention then Failure(MessageExpired) else Success(payload))
    ensures offset < |s.data| ==> Get(Push(s, payload, t).store, offset, now) == Get(s, offset, now)
  {
    var s' := Push(s, payload, t).store;
    if 0 <= offset < |s.data| {
      assert s'.data[offset] == s'.data[..|s.data|][offset];
    }
  }

  /** A read at age exactly `retention` still returns the entry; one unit later it is expired. */
  lemma ExpiryBoundary(s: MemoryStore, offset: int, now: int)
    requires 0 <= offset < |s.data|
    requires now - s.data[offset].timestamp == s.retention
    ensures Get(s, offset, now) == Success(s.data[offset].data)
    ensures Get(s, offset, now + 1) == Failure(MessageExpired)
  {
  }

  /** Cleanup changes nothing on an empty log or one whose head is newer than the cutoff. */
  lemma CleanupNoOp(s: MemoryStore, now: int)
    requires |s.data| == 0 || s.data[0].timestamp > Cutoff(s.retention, now)
    ensures Cleanup(s, now) == s
  {
  }

  /** Cleanup empties the log exactly when every entry is at or before the cutoff. */
  lemma CleanupEmpties(s: MemoryStore, now: int)
    ensures Cleanup(s, now).data == [] <==>
              forall i :: 0 <= i < |s.data| ==> s.data[i].timestamp <= Cutoff(s.retention, now)
  {
  }

  /**
   After cleanup, offset `i` names the entry that was at offset `i + k`,
   where `k` is the number of evicted entries.
   */
  lemma CleanupShiftsOffsets(s: MemoryStore, now: int, t: int, i: int)
    requires 0 <= i < |Cleanup(s, now).data|
    ensures var k := |s.data| - |Cleanup(s, now).data|;
            Cleanup(s, now).data[i] == s.data[i + k] &&
            Get(Cleanup(s, now), i, t) == Get(s, i + k, t)
  {
  }

  /** Running cleanup twice at the same instant is the same as running it once. */
  lemma CleanupIdempotent(s: MemoryStore, now: int)
    ensures Cleanup(Cleanup(s, now), now) == Cleanup(s, now)
  {
    CleanupNoOp(Cleanup(s, now), now);
  }

  /** Scanning the survivors of an earlier cutoff up to a later one lands where a single scan would. */
  lemma EvictionPointCompose(data: seq<StoredMessage>, c1: int, c2: int)
    requires c1 <= c2
    ensures var k1 := EvictionPoint(data, c1);
            k1 + EvictionPoint(data[k1..], c2) == EvictionPoint(data, c2)
  {
    var k1 := EvictionPoint(data, c1);
    var rest := data[k1..];
    var k2 := EvictionPoint(rest, c2);
    forall i | 0 <= i < k1 + k2
      ensures data[i].timestamp <= c2
    {
      if i >= k1 {
        assert data[i] == rest[i - k1];
      }
    }
    if k1 + k2 < |data| {
      assert data[k1 + k2] == rest[k2];
    }
    EvictionPointUnique(data, c2, k1 + k2);
  }

  /** A cleanup at `t1` followed by one at a later `t2` equals a single cleanup at `t2`. */
  lemma CleanupCompose(s: MemoryStore, t1: int, t2: int)
    requires t1 <= t2
    ensures Cleanup(Cleanup(s, t1), t2) == Cleanup(s, t2)
  {
    var c1 := Cutoff(s.retention, t1);
    var c2 := Cutoff(s.retention, t2);
    var k1 := EvictionPoint(s.data, c1);
    var rest := s.data[k1..];
    EvictionPointCompose(s.data, c1, c2);
    var k2 := EvictionPoint(rest, c2);
    assert Cleanup(s, t1) == MemoryStore(rest, s.retention);
    assert rest[k2..] == s.data[k1 + k2..];
  }

  /** A push stamped no earlier than the last entry keeps the log sorted. */
  lemma PushKeepsSorted(s: MemoryStore, payload: Bytes, now: int)
    requires Sorted(s.data)
    requires |s.data| > 0 ==> s.data[|s.data| - 1].timestamp <= now
    ensures Sorted(Push(s, payload, now).store.data)
  {
  }

  /** Cleanup keeps a sorted log sorted. */
  lemma CleanupKeepsSorted(s: MemoryStore, now: int)
    requires Sorted(s.data)
    ensures Sorted(Cleanup(s, now).data)
  {
  }

  /**
   On a sorted log, every entry a read at `now` reports as expired is gone
   after a cleanup at `now`.
   */
  lemma CleanupRemovesExpired(s: MemoryStore, now: int, offset: int)
    requires Sorted(s.data)
    requires Get(s, offset, now) == Failure(MessageExpired)
    ensures offset < |s.data| - |Cleanup(s, now).data|
  {
  }

  /**
   Read and cleanup disagree at the boundary: a head entry whose age is
   exactly the retention is still readable at `now`, yet a cleanup at `now`
   removes it.
   */
  lemma CleanupDropsBoundaryEntry(s: MemoryStore, now: int)
    requires |s.data| > 0
    requires now - s.data[0].timestamp == s.retention
    ensures Get(s, 0, now) == Success(s.data[0].data)
    ensures |Cleanup(s, now).data| < |s.data|
  {
  }

  /**
   Offsets are only meaningful between evictions: with retention 1000, push
   "a" at 0 (offset 0) and "b" at 600 (offset 1), clean up at 1100, then push
   "c" at 1200. The push returns offset 1 again, and a read of offset 1 now
   returns "c" instead of "b".
   */
  lemma StaleOffsetAliasing()
    ensures var first := Push(NewMemoryStore(1000), [97], 0);
            var second := Push(first.store, [98], 600);
            var cleaned := Cleanup(second.store, 1100);
            var third := Push(cleaned, [99], 1200);
            && first.offset == 0 && second.offset == 1 && third.offset == 1
            && Get(second.store, 1, 1100) == Success([98])
            && Get(third.store, 1, 1200) == Success([99])
  {
    var second := Push(Push(NewMemoryStore(1000), [97], 0).store, [98], 600).store;
    assert EvictionPoint(second.data, 100) == 1;
  }
}

=== FILE: wrappers.dfy ===
/** Failure-carrying values used across the broker model. */
module Wrappers {

  /** A value that may be absent. */
  datatype Option<+T> = None | Some(value: T)

  /** Either a value or a typed error. */
  datatype Result<+R, +E> = Success(value: R) | Failure(error: E)
}
